=== FILE: README.md ===
# oct2py value normalisation, modelled in Dafny

This project models the layer of oct2py that prepares Python values before
they are written to a MAT file for Octave (`oct2py/matwrite.py`):

- `putval`: a recursive, type-directed rewrite of a Python value. Dicts get
  their values rewritten. `None` becomes NaN. Lists become numeric arrays
  when NumPy infers a numeric kind, and are otherwise handled as tuples.
  Tuples and sets collapse when they have one element and otherwise become
  object ("cell") arrays. Arrays go through `clean_array`. Everything else
  passes through unchanged.
- `clean_array`: a decision table over the dtype descriptor (`dtype.str`),
  `dtype.name` and `dtype.kind`. It rejects extended-precision and void
  types with an error naming the dtype. It converts booleans,
  microsecond times and strings. It perturbs all-zero imaginary parts. It
  transposes multi-dimensional object arrays. Under `convert_to_float` it
  turns integer and boolean arrays into float.
- `write_file` up to the `savemat` call: it sets `nargin` to the number of
  positional arguments and normalises the whole bundle.

Modules:

- `Wrappers` holds `Option` and `Result`. `Err` plays the part of a raised exception.
- `Text` holds Python's substring test `sub in s` and the slice `s[-2:]`.
- `DTypes` holds the dtype descriptor and the `astype` targets.
- `Values` holds the value universe. A dict is an insertion-ordered list of entries. An ndarray is a dtype, a shape, a flat buffer with a memory order, and a `classname` flag.
- `Layouts` holds shapes, offsets and `.T`. `.T` reverses the shape over the same buffer, so it swaps C order and Fortran order.
- `Cleaning` / `CleaningProperties` model `clean_array` and its decision table.
- `Normalize` / `NormalizeProperties` model `putval`.
- `Writer` / `WriterProperties` model `write_file` before `savemat`.

NumPy's array inference for `np.array(data)` is outside the model. Every
normalising operation takes it as a parameter `infer`, and every property
holds for all such functions.

Three behaviours of the code are easy to misread, and the model keeps each
as written:

- The object array built on the tuple/set path (`np.array(data, dtype=object)`,
  line 58) never goes through `clean_array`, so it is never transposed.
- The `try` around the list-to-array attempt (lines 44-49) also catches the
  error `clean_array` raises. A numeric list whose inferred array is rejected
  therefore falls back to the tuple path instead of failing.
  `NormalizeProperties.ListErrorsComeFromElements` states the consequence:
  a list fails only when one of its elements fails.
- The fallback `putval(tuple(data))` (line 50) drops `convert_to_float` to
  its default `False`.

## Model

| member | source | states |
|---|---|---|
| `Cleaning.CleanArray` | oct2py/matwrite.py:68-92 | An error always names the input's own dtype. A result is never rejectable and never float128/complex256. Its descriptor is never `|b1`, `<m8[us]` or `<M8[us]`, and it contains neither `|S` nor `<U`. Big-endian text and time arrays such as `>U5` or `>m8[us]` match no rule and pass through unchanged. Under `convert_to_float` its kind is never u, i or b. |
| `CleaningProperties.CleanKeepsGeometry` | oct2py/matwrite.py:77-92 | Cleaning keeps the element count and the `classname` attribute, keeps the buffer well-formed, and at most reverses the shape. |
| `CleaningProperties.RejectedIff` | oct2py/matwrite.py:70-86 | An array is rejected exactly when one of three cases holds: a complex descriptor ending in "24", a float descriptor ending in "12", or a void descriptor without `classname`. The fourth case is a dtype that the conversions keep and whose name is float128/complex256. The flag plays no part, and the error names the array's dtype. |
| `CleaningProperties.ExtendedPrecisionRejected` | oct2py/matwrite.py:85-86 | float128 and complex256 arrays fail with the unsupported-dtype error whatever `convert_to_float` is. |
| `CleaningProperties.FlagOnlyRetypes` | oct2py/matwrite.py:89-90 | With the flag set, the result is the flag-less result with u/i/b kinds turned into float64. The flag never changes whether an array is rejected. |
| `CleaningProperties.BoolBecomesInt8` | oct2py/matwrite.py:77-78 | A `|b1` array becomes int8, or float64 under the flag. Elements, shape and layout stay the same. |
| `CleaningProperties.MicrosecondTimeBecomesUInt64` | oct2py/matwrite.py:79-80 | `<m8[us]` and `<M8[us]` arrays become uint64, or float64 under the flag. |
| `CleaningProperties.TextBecomesObject` | oct2py/matwrite.py:81-88 | Arrays whose descriptor contains `|S` or `<U` become object arrays. They are transposed when they have more than one dimension, and the flag does not affect them. |
| `CleaningProperties.ZeroImagBumped` | oct2py/matwrite.py:83-84 | A `<c` array with all imaginary parts zero comes back with every imaginary part set to the tiny marker. Real parts, dtype and shape are kept. |
| `CleaningProperties.NonZeroImagUntouched` | oct2py/matwrite.py:83-84 | A `<c` array of kind `c` with some non-zero imaginary part comes back unchanged, unless it is complex256, which lines 85-86 reject. |
| `CleaningProperties.ObjectResultIsTransposedRecast` | oct2py/matwrite.py:77-90 | A successful multi-dimensional object result is exactly `.T` of the converted array. The conversion to float never touches an object dtype. |
| `CleaningProperties.ObjectResultTransposed` | oct2py/matwrite.py:87-88 | A cleaned multi-dimensional object array has the reversed shape. Its element at index `idx` is the input's element at the reversed index. |
| `CleaningProperties.OthersKeepOrientation` | oct2py/matwrite.py:77-90 | Every other result keeps the shape, memory order and buffer of the converted array. |
| `CleaningProperties.CleanTwice` | oct2py/matwrite.py:68-92 | Cleaning a cleaned array changes nothing, except that it undoes the transpose of a multi-dimensional object array. |
| `Layouts.TransposeAt` | oct2py/matwrite.py:87-88 | `.T` gives a well-formed array whose element at `idx` is the original's element at the reversed index. |
| `Layouts.TransposeTwice` | oct2py/matwrite.py:87-88 | `.T` twice gives back the original array. |
| `Text.ContainsCharIffMember` | oct2py/matwrite.py:71-75 | For a one-character pattern, `sub in s` is plain character membership. |
| `Text.LastTwoIsSuffixTest` | oct2py/matwrite.py:71-73 | `s[-2:] == "24"` is a suffix test, including for strings shorter than two characters. |
| `Normalize.ObjectArray` | oct2py/matwrite.py:58 | The object array built from n items is well-formed, has shape [n], and holds item i at index i. |
| `Normalize.PutItems` | oct2py/matwrite.py:53-54 | On success each element is the normalised element at the same position. Otherwise the error is that of the first element that fails. |
| `Normalize.PutEntries` | oct2py/matwrite.py:34-36 | Keys and their order are kept. On success each value is normalised. Otherwise the error is that of the first value that fails. |
| `NormalizeProperties.NoneBecomesNaN` | oct2py/matwrite.py:39-40 | `None` normalises to NaN and never fails. |
| `NormalizeProperties.OthersPassThrough` | oct2py/matwrite.py:64-65 | NaN, integers, strings and other unhandled values come back unchanged. |
| `NormalizeProperties.DictKeepsKeys` | oct2py/matwrite.py:34-36 | A dict comes back as a dict with the same keys in the same order, each value normalised. It fails exactly when some value fails. |
| `NormalizeProperties.NumericListBecomesArray` | oct2py/matwrite.py:43-47 | A list whose inferred array has kind u/i/c/f, and which `clean_array` accepts, becomes that cleaned array. |
| `NormalizeProperties.ListFallsBackToTuple` | oct2py/matwrite.py:43-50 | In every other case a list normalises exactly as the tuple of its elements with the flag false. So the caller's flag makes no difference. |
| `NormalizeProperties.ListErrorsComeFromElements` | oct2py/matwrite.py:44-50 | A list fails only when one of its elements fails on the tuple path. |
| `NormalizeProperties.SingletonCollapses` | oct2py/matwrite.py:53-56 | A one-element tuple or set normalises to its normalised element. |
| `NormalizeProperties.CollectionBecomesCellArray` | oct2py/matwrite.py:53-58 | A tuple or set of any other length, empty included, becomes a 1-D object array with one normalised entry per element, in order. The array is C-ordered and not transposed. It fails exactly when an element fails, and sets behave as tuples. |
| `NormalizeProperties.ArrayIsCleaned` | oct2py/matwrite.py:60-62 | An ndarray succeeds exactly when `clean_array` does, and becomes its result. |
| `NormalizeProperties.PutvalNormalizes` | oct2py/matwrite.py:29-65 | Every successful result is in the output model. No None, list, tuple or set remains at the top or under a dict key. Every array at the top or under a dict key has a storable dtype. The elements of object arrays are not inspected. |
| `NormalizeProperties.CollectionNormalizes` | oct2py/matwrite.py:52-58 | The tuple/set path yields values in the output model. |
| `Values.LookupFindsKey` | oct2py/matwrite.py:20 | `d[key]` succeeds exactly for the dict's keys and returns an entry stored under that key. |
| `Writer.SetKey` | oct2py/matwrite.py:20 | After `d[key] = v`, looking up `key` gives `v`, and every other key's lookup is unchanged. |
| `Writer.SetKeyOrder` | oct2py/matwrite.py:20 | An assigned key keeps its place if present and is appended otherwise. |
| `Writer.SetKeyDistinct` | oct2py/matwrite.py:20 | Assignment keeps dict keys unique. |
| `WriterProperties.LookupAfterPutEntries` | oct2py/matwrite.py:34-36 | After normalising a dict, each key finds the normalised value of what it held before. |
| `WriterProperties.WriteFileArgumentErrors` | oct2py/matwrite.py:20 | A missing `func_args` raises KeyError, and a `func_args` without a length raises TypeError. |
| `WriterProperties.WriteFileInjectsNargin` | oct2py/matwrite.py:17-21 | The written bundle has `nargin == len(func_args)` and overwrites any earlier `nargin`. Its keys are the caller's keys, plus `nargin` at the end if it was new. |
| `WriterProperties.WriteFileNormalizesEntries` | oct2py/matwrite.py:20-21 | Every other key of the written bundle holds the normalised value of the caller's entry. |
| `WriterProperties.WriteFileNormalizes` | oct2py/matwrite.py:20-21 | The written bundle is in the output model. |
| `WriterProperties.NoneArgumentScenario` | oct2py/matwrite.py:17-21 | `{'func_args': [], 'y': None}` is written with `nargin == 0` and `y` as NaN, whatever NumPy infers. |
| `Normalize.Putval` | oct2py/matwrite.py:29-65 | No contract of its own: it is the case analysis of `putval`. Its behaviour is pinned per case by `NoneBecomesNaN`, `OthersPassThrough`, `DictKeepsKeys`, `NumericListBecomesArray`, `ListFallsBackToTuple`, `SingletonCollapses`, `CollectionBecomesCellArray` and `ArrayIsCleaned`, and over all inputs by `PutvalNormalizes`. |
| `Cleaning.Recast` | oct2py/matwrite.py:77-84 | No contract of its own: it is the `elif` chain of conversions. `RecastKeepsGeometry`, `BoolBecomesInt8`, `MicrosecondTimeBecomesUInt64`, `TextBecomesObject`, `ZeroImagBumped`, `NonZeroImagUntouched` and `PassThrough` pin each row. |
| `Layouts.Transpose` | oct2py/matwrite.py:87-88 | No contract of its own: `.T` as a shape reversal over the same buffer. `TransposeAt` and `TransposeTwice` pin it against index semantics. |
| `Writer.Len` | oct2py/matwrite.py:20 | No contract of its own and no partner lemma: Python's `len()` is a primitive case table. It gives the size of a list, tuple, set, dict or string and `shape[0]` of an array with a dimension, and a `TypeError` otherwise. `WriteFileArgumentErrors` and `WriteFileInjectsNargin` state how `write_file` uses it. |
| `Writer.WriteFile` | oct2py/matwrite.py:17-21 | No contract of its own. `WriteFileArgumentErrors`, `WriteFileInjectsNargin`, `WriteFileNormalizesEntries`, `WriteFileNormalizes` and `WriteFileDefaultFloats` pin it. |
| `CleaningProperties.PassThrough` | oct2py/matwrite.py:70-92 | An array that no check rejects and no conversion matches keeps its dtype and buffer. Only the object transpose and the conversion to float apply to it. |
| `CleaningProperties.Int64PassesThrough` | oct2py/matwrite.py:68-92 | A `<i8` array comes back unchanged, or as float64 under the flag. |
| `WriterProperties.WriteFileDefaultFloats` | oct2py/matwrite.py:17-21 | With `write_file`'s default `convert_to_float=True`, an entry the caller passes as an ndarray is written with a kind other than u, i or b. A list of booleans takes the tuple path, which drops the flag (line 50), so it is not covered. |

## Left out

- The `savemat` call, its options (`appendmat`, `oned_as`, `long_field_names`) and the re-raise of its `KeyError` (lines 22-26) are left out. They are file I/O in a library outside the model. `Writer.WriteFile` returns the bundle that would be handed to `savemat`.
- NumPy's inference in `np.array(data)` (line 45) is a parameter. Its possible failure is an `Option`.
- `np.array(items, dtype=object)` (line 58) is modelled as a 1-D array of the items. NumPy builds a higher-dimensional object array when the items are equal-length sequences, and that case is not modelled.
- Element values are not modelled: NaN, the 1e-9 constant, and the value conversions of `astype`. Real numbers are symbolic (`Zero`, `Tiny`, `NonZero`). `astype` changes only the dtype.
- The text of the error message is left out. It renders `str(dtype)` in a platform-dependent way, so the error carries the dtype itself.
- The mapping from `dtype.str` to `dtype.name` is platform-dependent, so the two are independent fields. The `astype` targets are written as a little-endian host reports them ("|i1", "<u8", "|O", "<f8").
- Set iteration order is left out: a set is given as a sequence in its iteration order.
- In-place mutation of the caller's objects is left out. `putval` writes each rewritten value back into the caller's dict (line 36), including the values already rewritten when a later value fails. `clean_array` writes `data.imag = 1e-9` into the caller's array (line 84), also for a complex256 array that lines 85-86 then reject. The model builds new values instead. Two visible effects of these writes are therefore not modelled. First, a dict reached twice is normalised twice. With `func_args = (s, s)`, the second `putval(s)` sees the already cleaned values, and a multi-dimensional string array is transposed back (lines 36, 87-88), as `CleaningProperties.CleanTwice` shows. The model normalises each copy once from the original. Second, `data.imag = 1e-9` raises `ValueError` on a read-only array, such as one from `np.broadcast_to` or `np.frombuffer`. The model has no read-only flag, so `CleaningProperties.ZeroImagBumped` gives a result there.
- Only contiguous arrays are modelled: a buffer in C or Fortran order. Arbitrary strides are not.
- Exceptions inside the list `try` other than those of `np.array` and `clean_array` are left out, and so are `len()` on user objects that define `__len__`. `Other` values have no length.
- CleaningProperties.ObjectResultTransposed: stated for descriptors without `<c`. An object dtype's descriptor never contains it, and otherwise the model would also allow the imaginary-part rewrite on an object array.
- CleaningProperties.ZeroImagBumped: stated for arrays of kind `c` whose name is not float128/complex256. A `<c` descriptor of another kind does not occur in NumPy, and complex256 is rejected after the rewrite anyway.
- The model assumes a NumPy older than 1.24. The code uses `np.NaN` (line 40), `np.object` (line 82) and `np.alltrue` (line 83). `np.object` was removed in NumPy 1.24, and the other two in NumPy 2.0. On those versions these lines raise `AttributeError`, so `None` would not become NaN and string arrays would not become object arrays. Under NumPy 2.0, `np.alltrue` also fails for every `<c` array that reaches line 83. Inside the list `try`, that failure sends a complex list down the tuple path. `NormalizeProperties.NoneBecomesNaN`, `CleaningProperties.TextBecomesObject`, `CleaningProperties.ZeroImagBumped` and `CleaningProperties.NonZeroImagUntouched` describe the older NumPy.
- CleaningProperties.NonZeroImagUntouched: stated for arrays of kind `c` whose name is not complex256. A complex256 array is rejected at lines 85-86, which `CleaningProperties.RejectedIff` covers.
- Byte order is not normalised. The text and time tests (lines 79 and 81) match only the byte orders they spell out, so big-endian descriptors such as `>U5` or `>m8[us]` pass through `clean_array` unchanged. The model does the same.

=== FILE: cleaning.dfy ===
/** `clean_array`: the dtype decision table that makes an ndarray storable in
    a MAT file, or rejects it naming its dtype. */
module Cleaning {
  import opened Wrappers
  import opened Text
  import opened DTypes
  import opened Values
  import opened Layouts

  /** The three checks made before any conversion: extended-precision complex
      ('c' in the descriptor, ending in "24"), extended-precision float
      ('f', ending in "12"), and void records without a `classname`. */
  predicate RejectedUpFront(a: Arr) {
    var s := a.dt.str;
    || (Contains(s, "c") && LastTwo(s) == "24")
    || (Contains(s, "f") && LastTwo(s) == "12")
    || (Contains(s, "V") && !a.hasClassname)
  }

  predicate IsBoolStr(s: string) {
    s == "|b1"
  }

  /** Microsecond timedelta or datetime. */
  predicate IsMicrosecondTimeStr(s: string) {
    s == "<m8[us]" || s == "<M8[us]"
  }

  /** Fixed-width byte strings or unicode strings. */
  predicate IsTextStr(s: string) {
    Contains(s, "|S") || Contains(s, "<U")
  }

  predicate IsComplexStr(s: string) {
    Contains(s, "<c")
  }

  /** `np.alltrue(data.imag == 0)`. */
  predicate AllImagZero(es: seq<Elem>) {
    forall i :: 0 <= i < |es| ==> es[i].Num? && es[i].im == Zero
  }

  /** `data.imag = 1e-9`: every imaginary part becomes the tiny marker. */
  function BumpImag(es: seq<Elem>): (r: seq<Elem>)
    ensures |r| == |es|
  {
    seq(|es|, i requires 0 <= i < |es| =>
      match es[i]
      case Num(re, _) => Num(re, Tiny)
      case Obj(x) => Obj(x))
  }

  /** The `elif` chain of conversions: at most one of them applies. */
  function Recast(a: Arr): Arr {
    var s := a.dt.str;
    if IsBoolStr(s) then a.(dt := Int8)
    else if IsMicrosecondTimeStr(s) then a.(dt := UInt64)
    else if IsTextStr(s) then a.(dt := Object)
    else if IsComplexStr(s) && AllImagZero(a.elems) then a.(elems := BumpImag(a.elems))
    else a
  }

  /** The conversions change the dtype or the imaginary parts, never the
      shape, the layout or the number of elements. */
  lemma RecastKeepsGeometry(a: Arr)
    ensures Recast(a).shape == a.shape && Recast(a).order == a.order
    ensures |Recast(a).elems| == |a.elems| && Recast(a).hasClassname == a.hasClassname
  {
  }

  /** The `elif` chain leaves the dtype as it was. */
  predicate KeepsDType(s: string) {
    !IsBoolStr(s) && !IsMicrosecondTimeStr(s) && !IsTextStr(s)
  }

  /** `astype(float)` under `convert_to_float` for unsigned, signed and boolean kinds. */
  function ToFloat(a: Arr, convertToFloat: bool): Arr {
    if convertToFloat && IsIntegralKind(a.dt.kind) then a.(dt := Float64) else a
  }

  /** `data.T` for object arrays with more than one dimension. */
  function Orient(a: Arr): (r: Arr)
    ensures r.dt == a.dt && r.elems == a.elems && r.hasClassname == a.hasClassname
    ensures r.shape == a.shape || r.shape == Reverse(a.shape)
    ensures WellFormed(a) ==> WellFormed(r)
  {
    ProdReverse(a.shape);
    if IsObject(a.dt) && |a.shape| > 1 then Transpose(a) else a
  }

  /** What a successful clean-up guarantees about its result's dtype. */
  predicate Cleaned(a: Arr) {
    && !RejectedUpFront(a)
    && KeepsDType(a.dt.str)
    && !IsExtendedPrecision(a.dt)
  }

  /** What the clean-up needs to know about an `astype` target: it trips no
      rejection and no further conversion. */
  predicate CleanTarget(dt: DType) {
    && !Contains(dt.str, "c") && !Contains(dt.str, "V") && LastTwo(dt.str) != "12"
    && !IsComplexStr(dt.str) && KeepsDType(dt.str) && !IsExtendedPrecision(dt)
  }

  /** A descriptor without the marker letters, which is not an exact match of
      the chain and does not end in "12", is a clean target. */
  lemma PlainTarget(dt: DType)
    requires 'S' !in dt.str && 'U' !in dt.str && 'c' !in dt.str && 'V' !in dt.str
    requires !IsBoolStr(dt.str) && !IsMicrosecondTimeStr(dt.str)
    requires LastTwo(dt.str) != "12" && !IsExtendedPrecision(dt)
    ensures CleanTarget(dt)
  {
    NoMarkers(dt.str);
  }

  /** None of the `astype` targets trips a rejection or a further conversion. */
  lemma Int8IsClean()
    ensures CleanTarget(Int8)
  {
    PlainTarget(Int8);
  }

  lemma UInt64IsClean()
    ensures CleanTarget(UInt64)
  {
    PlainTarget(UInt64);
  }

  lemma ObjectIsClean()
    ensures CleanTarget(Object)
  {
    PlainTarget(Object);
  }

  lemma Float64IsClean()
    ensures CleanTarget(Float64)
  {
    PlainTarget(Float64);
  }

  /** The dtype a conversion of the `elif` chain produces is a clean target. */
  lemma RecastTargetIsClean(a: Arr)
    requires !KeepsDType(a.dt.str)
    ensures CleanTarget(Recast(a).dt)
  {
    if IsBoolStr(a.dt.str) {
      Int8IsClean();
    } else if IsMicrosecondTimeStr(a.dt.str) {
      UInt64IsClean();
    } else {
      ObjectIsClean();
    }
  }

  /** The exact-match descriptors of the chain are neither text nor complex. */
  lemma ExactMatchesAreNotText()
    ensures forall s | s in {"|b1", "<m8[us]", "<M8[us]"} :: !IsTextStr(s) && !IsComplexStr(s)
  {
    forall s | s in {"|b1", "<m8[us]", "<M8[us]"} ensures !IsTextStr(s) && !IsComplexStr(s) {
      NoMarkers(s);
    }
  }

  /** Descriptors lacking the letters of the markers match none of them. */
  lemma NoMarkers(s: string)
    requires 'S' !in s && 'U' !in s && 'c' !in s && 'V' !in s
    ensures !IsTextStr(s) && !IsComplexStr(s) && !Contains(s, "c") && !Contains(s, "V")
  {
    MissingCharNotContained(s, "|S", 1);
    MissingCharNotContained(s, "<U", 1);
    MissingCharNotContained(s, "<c", 1);
    MissingCharNotContained(s, "c", 0);
    MissingCharNotContained(s, "V", 0);
  }

  /** The conversion targets are not extended-precision types, so a dtype
      the table rejects after the conversions is the original one. */
  lemma RecastNeverYieldsExtended(a: Arr)
    ensures IsExtendedPrecision(Recast(a).dt) ==> Recast(a).dt == a.dt
  {
  }

  /** Whatever passes the checks and the conversions satisfies `Cleaned`. */
  lemma RecastIsCleaned(a: Arr)
    requires !RejectedUpFront(a) && !IsExtendedPrecision(Recast(a).dt)
    ensures Cleaned(Recast(a))
  {
    if !KeepsDType(a.dt.str) {
      RecastTargetIsClean(a);
    }
  }

  lemma ToFloatKeepsCleaned(a: Arr, convertToFloat: bool)
    requires Cleaned(a)
    ensures Cleaned(ToFloat(a, convertToFloat))
  {
    if ToFloat(a, convertToFloat).dt != a.dt {
      Float64IsClean();
    }
  }

  function CleanArray(a: Arr, convertToFloat: bool): (r: Result<Arr, Error>)
    ensures r.Err? ==> r.error == Unsupported(a.dt)
    ensures r.Ok? ==> Cleaned(r.value)
    ensures r.Ok? && convertToFloat ==> !IsIntegralKind(r.value.dt.kind)
  {
    if RejectedUpFront(a) then Err(Unsupported(a.dt))
    else
      var b := Recast(a);
      RecastNeverYieldsExtended(a);
      if IsExtendedPrecision(b.dt) then Err(Unsupported(b.dt))
      else
        var c := Orient(b);
        RecastIsCleaned(a);
        ToFloatKeepsCleaned(c, convertToFloat);
        Ok(ToFloat(c, convertToFloat))
  }
}

module CleaningProperties {
  import opened Wrappers
  import opened Text
  import opened DTypes
  import opened Values
  import opened Layouts
  import opened Cleaning

  /** A clean-up keeps the element count and the `classname` attribute, keeps
      the buffer well-formed, and at most reverses the shape. */
  lemma CleanKeepsGeometry(a: Arr, convertToFloat: bool)
    requires CleanArray(a, convertToFloat).Ok?
    ensures var b := CleanArray(a, convertToFloat).value;
            && b.hasClassname == a.hasClassname && |b.elems| == |a.elems|
            && (b.shape == a.shape || b.shape == Reverse(a.shape))
            && (WellFormed(a) ==> WellFormed(b))
  {
    RecastKeepsGeometry(a);
  }

  /** The rejections: an array is refused exactly when one of the three
      up-front checks fires, or when its dtype survives the conversions and is
      `float128` or `complex256`. The flag plays no part, and the error always
      names the array's own dtype. */
  lemma RejectedIff(a: Arr, convertToFloat: bool)
    ensures CleanArray(a, convertToFloat).Err?
        <==> RejectedUpFront(a) || (KeepsDType(a.dt.str) && IsExtendedPrecision(a.dt))
    ensures CleanArray(a, convertToFloat).Err? ==> CleanArray(a, convertToFloat).error == Unsupported(a.dt)
  {
    if !RejectedUpFront(a) && !KeepsDType(a.dt.str) {
      RecastTargetIsClean(a);
    }
  }

  /** `float128` and `complex256` arrays fail whatever `convert_to_float` says,
      because that check precedes the conversion to float. */
  lemma ExtendedPrecisionRejected(a: Arr, convertToFloat: bool)
    requires IsExtendedPrecision(a.dt) && KeepsDType(a.dt.str)
    ensures CleanArray(a, convertToFloat) == Err(Unsupported(a.dt))
  {
    RejectedIff(a, convertToFloat);
  }

  /** `convert_to_float` only retypes a successful result; it never changes
      whether the array is rejected. */
  lemma FlagOnlyRetypes(a: Arr)
    ensures CleanArray(a, true) == match CleanArray(a, false)
                                   case Ok(b) => Ok(ToFloat(b, true))
                                   case Err(e) => Err(e)
    ensures CleanArray(a, true).Ok? ==> !IsIntegralKind(CleanArray(a, true).value.dt.kind)
  {
  }

  /** Boolean arrays become int8, or float64 under `convert_to_float`; the
      elements, shape and layout are kept. */
  lemma BoolBecomesInt8(a: Arr)
    requires a.dt.str == "|b1"
    ensures CleanArray(a, false) == Ok(a.(dt := Int8))
    ensures CleanArray(a, true) == Ok(a.(dt := Float64))
  {
    MissingCharNotContained(a.dt.str, "c", 0);
    MissingCharNotContained(a.dt.str, "V", 0);
    MissingCharNotContained(a.dt.str, "f", 0);
  }

  /** The microsecond descriptors trip none of the up-front checks. */
  lemma MicroStrFacts(s: string)
    requires IsMicrosecondTimeStr(s)
    ensures !Contains(s, "c") && !Contains(s, "V") && !Contains(s, "f") && !IsBoolStr(s)
  {
    MissingCharNotContained(s, "c", 0);
    MissingCharNotContained(s, "V", 0);
    MissingCharNotContained(s, "f", 0);
  }

  /** Microsecond timedeltas and datetimes become uint64, or float64 under
      `convert_to_float`. */
  lemma MicrosecondTimeBecomesUInt64(a: Arr)
    requires a.dt.str == "<m8[us]" || a.dt.str == "<M8[us]"
    ensures CleanArray(a, false) == Ok(a.(dt := UInt64))
    ensures CleanArray(a, true) == Ok(a.(dt := Float64))
  {
    MicroStrFacts(a.dt.str);
    assert !RejectedUpFront(a);
    assert Recast(a) == a.(dt := UInt64);
  }

  /** Byte-string and unicode arrays become object arrays, transposed when
      they have more than one dimension; the flag does not touch them. */
  lemma TextBecomesObject(a: Arr, convertToFloat: bool)
    requires IsTextStr(a.dt.str) && !RejectedUpFront(a)
    ensures CleanArray(a, convertToFloat)
         == Ok(if |a.shape| > 1 then Transpose(a.(dt := Object)) else a.(dt := Object))
  {
    ExactMatchesAreNotText();
    var b := a.(dt := Object);
    assert Recast(a) == b;
    ObjectIsClean();
    assert CleanArray(a, convertToFloat) == Ok(ToFloat(Orient(b), convertToFloat));
  }

  /** A little-endian complex array whose imaginary parts are all zero gets
      the tiny marker in every imaginary part and keeps every real part. */
  lemma ZeroImagBumped(a: Arr, convertToFloat: bool)
    requires a.dt.kind == 'c' && IsComplexStr(a.dt.str) && !IsTextStr(a.dt.str)
    requires !RejectedUpFront(a) && !IsExtendedPrecision(a.dt)
    requires AllImagZero(a.elems)
    ensures CleanArray(a, convertToFloat).Ok?
    ensures var b := CleanArray(a, convertToFloat).value;
            && b.dt == a.dt && b.shape == a.shape && b.order == a.order
            && |b.elems| == |a.elems|
            && forall i :: 0 <= i < |a.elems| ==> b.elems[i] == Num(a.elems[i].re, Tiny)
  {
    ExactMatchesAreNotText();
  }

  /** A complex array with some non-zero imaginary part is left untouched. */
  lemma NonZeroImagUntouched(a: Arr, convertToFloat: bool)
    requires a.dt.kind == 'c' && IsComplexStr(a.dt.str) && !IsTextStr(a.dt.str)
    requires !RejectedUpFront(a) && !IsExtendedPrecision(a.dt)
    requires !AllImagZero(a.elems)
    ensures CleanArray(a, convertToFloat) == Ok(a)
  {
    ExactMatchesAreNotText();
  }

  /** A multi-dimensional object result is the transpose of the converted array. */
  lemma ObjectResultIsTransposedRecast(a: Arr, convertToFloat: bool)
    requires |a.shape| > 1
    requires CleanArray(a, convertToFloat).Ok? && IsObject(CleanArray(a, convertToFloat).value.dt)
    ensures CleanArray(a, convertToFloat).value == Transpose(Recast(a))
  {
    RecastKeepsGeometry(a);
    var b := Recast(a);
    var r := CleanArray(a, convertToFloat).value;
    assert r == ToFloat(Orient(b), convertToFloat);
    assert r.dt == b.dt;
  }

  /** The logical element at `idx` of a cleaned multi-dimensional object array
      is the input's element at the reversed index. */
  lemma ObjectResultTransposed(a: Arr, convertToFloat: bool, idx: seq<nat>)
    requires WellFormed(a) && |a.shape| > 1 && !IsComplexStr(a.dt.str)
    requires CleanArray(a, convertToFloat).Ok? && IsObject(CleanArray(a, convertToFloat).value.dt)
    requires ValidIndex(idx, Reverse(a.shape))
    ensures CleanArray(a, convertToFloat).value.shape == Reverse(a.shape)
    ensures ValidIndex(Reverse(idx), a.shape)
    ensures WellFormed(CleanArray(a, convertToFloat).value)
    ensures At(CleanArray(a, convertToFloat).value, idx) == At(a, Reverse(idx))
  {
    ObjectResultIsTransposedRecast(a, convertToFloat);
    RecastKeepsGeometry(a);
    var b := Recast(a);
    assert b == a.(dt := b.dt);
    TransposeAt(b, idx);
  }

  /** Arrays that are not multi-dimensional object arrays keep their shape,
      layout and elements, except for the imaginary-part rewrite. */
  lemma OthersKeepOrientation(a: Arr, convertToFloat: bool)
    requires CleanArray(a, convertToFloat).Ok?
    requires !IsObject(CleanArray(a, convertToFloat).value.dt) || |a.shape| <= 1
    ensures CleanArray(a, convertToFloat).value.shape == a.shape
    ensures CleanArray(a, convertToFloat).value.order == a.order
    ensures CleanArray(a, convertToFloat).value.elems == Recast(a).elems
  {
    RecastKeepsGeometry(a);
  }

  /** The fall-through row of the table: a dtype that no check rejects and
      no conversion matches keeps its dtype and buffer. Only the transpose of
      a multi-dimensional object array and the conversion to float apply. */
  lemma PassThrough(a: Arr, convertToFloat: bool)
    requires !RejectedUpFront(a) && KeepsDType(a.dt.str) && !IsExtendedPrecision(a.dt)
    requires !(IsComplexStr(a.dt.str) && AllImagZero(a.elems))
    ensures CleanArray(a, convertToFloat) == Ok(ToFloat(Orient(a), convertToFloat))
  {
    assert Recast(a) == a;
  }

  /** A little-endian int64 array, the most common input, comes back as it
      was, or retyped to float64 under `convert_to_float`. */
  lemma Int64PassesThrough(a: Arr)
    requires a.dt == DType("<i8", 'i', "int64")
    ensures CleanArray(a, false) == Ok(a)
    ensures CleanArray(a, true) == Ok(a.(dt := Float64))
  {
    NoMarkers(a.dt.str);
    MissingCharNotContained(a.dt.str, "f", 0);
    assert !IsBoolStr(a.dt.str) && !IsMicrosecondTimeStr(a.dt.str);
    PassThrough(a, false);
    PassThrough(a, true);
  }

  /** After a successful clean-up a non-empty complex array never has all
      imaginary parts zero: either they were bumped or one was non-zero. */
  lemma CleanedImagNotAllZero(a: Arr, convertToFloat: bool)
    requires CleanArray(a, convertToFloat).Ok?
    ensures var b := CleanArray(a, convertToFloat).value;
            IsComplexStr(b.dt.str) && |b.elems| > 0 ==> !AllImagZero(b.elems)
  {
    RecastKeepsGeometry(a);
    var r := Recast(a);
    var b := CleanArray(a, convertToFloat).value;
    assert b.elems == r.elems;
    if b.dt.str == a.dt.str {
      if KeepsDType(a.dt.str) && IsComplexStr(a.dt.str) && AllImagZero(a.elems) && |a.elems| > 0 {
        assert r.elems[0].im == Tiny;
      }
    } else if b.dt != Orient(r).dt {
      Float64IsClean();
    } else {
      RecastTargetIsClean(a);
    }
  }

  /** A second clean-up changes nothing, except that it undoes the transpose
      of a multi-dimensional object array. */
  lemma CleanTwice(a: Arr, convertToFloat: bool)
    requires CleanArray(a, convertToFloat).Ok?
    ensures var b := CleanArray(a, convertToFloat).value;
            CleanArray(b, convertToFloat)
            == Ok(if IsObject(b.dt) && |b.shape| > 1 then Transpose(b) else b)
  {
    var b := CleanArray(a, convertToFloat).value;
    CleanedImagNotAllZero(a, convertToFloat);
    RecastKeepsGeometry(b);
    if IsComplexStr(b.dt.str) && AllImagZero(b.elems) {
      assert BumpImag(b.elems) == b.elems;
    }
    assert Recast(b) == b;
  }
}

=== FILE: dtypes.dfy ===
/** NumPy element-type descriptors, as far as the decision table reads them. */
module DTypes {

  /** A dtype seen through its three string-valued attributes: `str` (the
      descriptor with byte order and width, e.g. "<c16", "|b1", "<M8[us]"),
      `kind` (one character: 'b', 'i', 'u', 'f', 'c', 'm', 'M', 'O', 'S', 'U', 'V')
      and `name` (e.g. "float128"). The mapping from `str` to `name` depends on
      the platform, so the two are kept as independent fields. */
  datatype DType = DType(str: string, kind: char, name: string)

  /** Targets of `astype`, as a little-endian host reports them. */
  const Int8: DType := DType("|i1", 'i', "int8")
  const UInt64: DType := DType("<u8", 'u', "uint64")
  const Object: DType := DType("|O", 'O', "object")
  const Float64: DType := DType("<f8", 'f', "float64")

  /** `dtype == 'object'`: the generic-reference element type. */
  predicate IsObject(dt: DType) {
    dt.kind == 'O'
  }

  /** `kind in 'uicf'`: unsigned, signed, complex or floating point. */
  predicate IsNumericKind(kind: char) {
    kind in "uicf"
  }

  /** `kind in 'uib'`: the kinds that `convert_to_float` turns into float. */
  predicate IsIntegralKind(kind: char) {
    kind in "uib"
  }

  /** `name in ['float128', 'complex256']`: extended precision types. */
  predicate IsExtendedPrecision(dt: DType) {
    dt.name == "float128" || dt.name == "complex256"
  }
}

=== FILE: layouts.dfy ===
/** Shapes, flat buffers and transposition. An ndarray stores its elements in
    a flat buffer; the logical element at a multi-index is found through the
    row-major (C) or column-major (Fortran) offset. NumPy's `.T` reverses the
    shape and keeps the buffer, which turns a C-ordered array into a
    Fortran-ordered one and back. */
module Layouts {
  import opened Values

  /** Number of elements of an array with the given shape. */
  function Prod(shape: seq<nat>): nat {
    if |shape| == 0 then 1 else shape[0] * Prod(shape[1..])
  }

  /** The elements of `s` in the opposite order. */
  function Reverse<T>(s: seq<T>): (r: seq<T>)
    ensures |r| == |s|
    ensures forall k :: 0 <= k < |s| ==> r[k] == s[|s| - 1 - k]
  {
    if |s| == 0 then [] else [s[|s| - 1]] + Reverse(s[..|s| - 1])
  }

  lemma ReverseReverse<T>(s: seq<T>)
    ensures Reverse(Reverse(s)) == s
  {
  }

  /** `idx` addresses an element of an array of this shape. */
  predicate ValidIndex(idx: seq<nat>, shape: seq<nat>) {
    |idx| == |shape| && forall k :: 0 <= k < |idx| ==> idx[k] < shape[k]
  }

  /** Column-major offset: the first index varies fastest. */
  function ColOffset(idx: seq<nat>, shape: seq<nat>): (r: nat)
    requires ValidIndex(idx, shape)
    ensures r < Prod(shape)
  {
    if |shape| == 0 then 0
    else
      var rest := ColOffset(idx[1..], shape[1..]);
      DigitBound(idx[0], shape[0], rest, Prod(shape[1..]));
      idx[0] + shape[0] * rest
  }

  /** Row-major offset: the last index varies fastest. */
  function RowOffset(idx: seq<nat>, shape: seq<nat>): (r: nat)
    requires ValidIndex(idx, shape)
    ensures r < Prod(shape)
  {
    if |shape| == 0 then 0
    else
      var n := |shape| - 1;
      var rest := RowOffset(idx[..n], shape[..n]);
      ProdSnoc(shape);
      DigitBound(idx[n], shape[n], rest, Prod(shape[..n]));
      idx[n] + shape[n] * rest
  }

  /** One mixed-radix digit step stays below the product of the radices. */
  lemma DigitBound(digit: nat, radix: nat, rest: nat, restBound: nat)
    requires digit < radix && rest < restBound
    ensures digit + radix * rest < radix * restBound
    ensures radix * restBound == restBound * radix
  {
    assert radix * (rest + 1) <= radix * restBound;
  }

  /** The product can be taken from the back as well as from the front. */
  lemma {:induction false} ProdSnoc(shape: seq<nat>)
    requires |shape| > 0
    ensures Prod(shape) == Prod(shape[..|shape| - 1]) * shape[|shape| - 1]
  {
    if |shape| > 1 {
      var n := |shape| - 1;
      ProdSnoc(shape[1..]);
      assert shape[1..][..n - 1] == shape[..n][1..];
    }
  }

  /** Reversing the shape keeps the element count. */
  lemma {:induction false} ProdReverse(shape: seq<nat>)
    ensures Prod(Reverse(shape)) == Prod(shape)
  {
    if |shape| > 0 {
      var n := |shape| - 1;
      ProdReverse(shape[..n]);
      ProdSnoc(shape);
      assert Reverse(shape)[1..] == Reverse(shape[..n]);
    }
  }

  /** The row-major offset of an index is the column-major offset of the
      reversed index in the reversed shape. */
  lemma {:induction false} RowOffsetIsReversedColOffset(idx: seq<nat>, shape: seq<nat>)
    requires ValidIndex(idx, shape)
    ensures ValidIndex(Reverse(idx), Reverse(shape))
    ensures RowOffset(idx, shape) == ColOffset(Reverse(idx), Reverse(shape))
  {
    if |shape| > 0 {
      var n := |shape| - 1;
      RowOffsetIsReversedColOffset(idx[..n], shape[..n]);
      assert Reverse(idx)[1..] == Reverse(idx[..n]);
      assert Reverse(shape)[1..] == Reverse(shape[..n]);
    }
  }

  /** The buffer holds exactly one element per index. */
  predicate WellFormed(a: Arr) {
    |a.elems| == Prod(a.shape)
  }

  function Offset(a: Arr, idx: seq<nat>): (r: nat)
    requires ValidIndex(idx, a.shape)
    ensures r < Prod(a.shape)
  {
    match a.order
    case RowMajor => RowOffset(idx, a.shape)
    case ColMajor => ColOffset(idx, a.shape)
  }

  /** The logical element `a[idx]`. */
  function At(a: Arr, idx: seq<nat>): Elem
    requires WellFormed(a) && ValidIndex(idx, a.shape)
  {
    a.elems[Offset(a, idx)]
  }

  function Flip(order: Layout): Layout {
    match order
    case RowMajor => ColMajor
    case ColMajor => RowMajor
  }

  /** NumPy's `a.T`: a view with the shape reversed over the same buffer. */
  function Transpose(a: Arr): Arr {
    a.(shape := Reverse(a.shape), order := Flip(a.order))
  }

  /** The transpose is a well-formed array whose element at `idx` is the
      original's element at the reversed index. */
  lemma TransposeAt(a: Arr, idx: seq<nat>)
    requires WellFormed(a) && ValidIndex(idx, Reverse(a.shape))
    ensures WellFormed(Transpose(a))
    ensures ValidIndex(Reverse(idx), a.shape)
    ensures At(Transpose(a), idx) == At(a, Reverse(idx))
  {
    ProdReverse(a.shape);
    ReverseReverse(a.shape);
    ReverseReverse(idx);
    match a.order
    case RowMajor =>
      RowOffsetIsReversedColOffset(Reverse(idx), a.shape);
    case ColMajor =>
      RowOffsetIsReversedColOffset(idx, Reverse(a.shape));
  }

  /** Transposing twice gives back the same array. */
  lemma TransposeTwice(a: Arr)
    ensures Transpose(Transpose(a)) == a
  {
    ReverseReverse(a.shape);
  }
}

=== FILE: normalize.dfy ===
/** `putval`: the recursive, type-directed rewrite of a Python value into
    something the MAT writer accepts. */
module Normalize {
  import opened Wrappers
  import opened DTypes
  import opened Values
  import opened Layouts
  import opened Cleaning

  /** `np.array(data)` on a list: NumPy's inference of a homogeneous array,
      or `None` when construction raises. It lies outside this model and is
      a parameter of every operation. */
  type Infer = seq<PyVal> -> Option<Arr>

  /** `putval`'s default for `convert_to_float`, also used on the fallback
      from a list to a tuple. */
  const PutvalDefaultConvert: bool := false

  /** `np.array(items, dtype=object)`: a one-dimensional C-ordered object
      array holding the items. */
  function ObjectArray(items: seq<PyVal>): (a: Arr)
    ensures WellFormed(a) && IsObject(a.dt) && a.shape == [|items|] && !a.hasClassname
    ensures forall i :: 0 <= i < |items| ==> At(a, [i]) == Obj(items[i])
  {
    assert Prod([|items|]) == |items| * Prod([]);
    Arr(Object, [|items|], RowMajor, seq(|items|, i requires 0 <= i < |items| => Obj(items[i])), false)
  }

  function Putval(v: PyVal, convertToFloat: bool, infer: Infer): (r: Result<PyVal, Error>)
    decreases v, 2
  {
    match v
    case Dict(es) =>
      var es' :- PutEntries(es, convertToFloat, infer);
      Ok(Dict(es'))
    case PyNone => Ok(NaN)
    case List(xs) =>
      var fallback := PutCollection(xs, PutvalDefaultConvert, infer);
      (match infer(xs)
       case Some(a) =>
         if IsNumericKind(a.dt.kind) then
           (match CleanArray(a, convertToFloat)
            case Ok(b) => Ok(NdArray(b))
            case Err(_) => fallback)
         else fallback
       case None => fallback)
    case Tuple(xs) => PutCollection(xs, convertToFloat, infer)
    case Set(xs) => PutCollection(xs, convertToFloat, infer)
    case NdArray(a) =>
      var b :- CleanArray(a, convertToFloat);
      Ok(NdArray(b))
    case _ => Ok(v)
  }

  /** The tuple and set case: normalise every element, then collapse a
      singleton or build an object ("cell") array. */
  function PutCollection(xs: seq<PyVal>, convertToFloat: bool, infer: Infer): (r: Result<PyVal, Error>)
    decreases xs, 1
  {
    var ys :- PutItems(xs, convertToFloat, infer);
    if |ys| == 1 then Ok(ys[0]) else Ok(NdArray(ObjectArray(ys)))
  }

  /** Normalises the elements in order; the first failure is the result. */
  function PutItems(xs: seq<PyVal>, convertToFloat: bool, infer: Infer): (r: Result<seq<PyVal>, Error>)
    ensures r.Ok? ==> |r.value| == |xs|
    ensures r.Ok? ==> forall i :: 0 <= i < |xs| ==> Putval(xs[i], convertToFloat, infer) == Ok(r.value[i])
    ensures r.Err? ==> exists i :: 0 <= i < |xs| && Putval(xs[i], convertToFloat, infer) == Err(r.error)
                                && forall j :: 0 <= j < i ==> Putval(xs[j], convertToFloat, infer).Ok?
    decreases xs, 0
  {
    if |xs| == 0 then Ok([])
    else
      var y :- Putval(xs[0], convertToFloat, infer);
      var ys :- PutItems(xs[1..], convertToFloat, infer);
      Ok([y] + ys)
  }

  /** Normalises the values of a dict in insertion order, keeping the keys.
      (The `assert`s in the contract are rank hints: they let the contract
      speak of `putval` on each value.) */
  function PutEntries(es: seq<(string, PyVal)>, convertToFloat: bool, infer: Infer): (r: Result<seq<(string, PyVal)>, Error>)
    ensures r.Ok? ==> Keys(r.value) == Keys(es)
    ensures r.Ok? ==> forall i :: 0 <= i < |es| ==> (assert es[i].1 < es[i]; Putval(es[i].1, convertToFloat, infer) == Ok(r.value[i].1))
    ensures r.Err? ==> exists i :: 0 <= i < |es| && (assert es[i].1 < es[i]; Putval(es[i].1, convertToFloat, infer) == Err(r.error))
                                && forall j :: 0 <= j < i ==> (assert es[j].1 < es[j]; Putval(es[j].1, convertToFloat, infer).Ok?)
    decreases es, 0
  {
    if |es| == 0 then Ok([])
    else
      assert es[0].1 < es[0];
      var y :- Putval(es[0].1, convertToFloat, infer);
      var rest :- PutEntries(es[1..], convertToFloat, infer);
      Ok([(es[0].0, y)] + rest)
  }
}

module NormalizeProperties {
  import opened Wrappers
  import opened DTypes
  import opened Values
  import opened Layouts
  import opened Cleaning
  import opened CleaningProperties
  import opened Normalize

  /** The output model: no `None`, list, tuple or set survives at the top
      level or under a dict key, and every array there carries a storable
      dtype. The elements of object arrays are not inspected. */
  predicate Normalized(v: PyVal) {
    match v
    case PyNone => false
    case List(_) => false
    case Tuple(_) => false
    case Set(_) => false
    case Dict(es) => forall i :: 0 <= i < |es| ==> (assert es[i].1 < es[i]; Normalized(es[i].1))
    case NdArray(a) => Cleaned(a)
    case _ => true
  }

  /** `None` becomes NaN and is never an error. */
  lemma NoneBecomesNaN(convertToFloat: bool, infer: Infer)
    ensures Putval(PyNone, convertToFloat, infer) == Ok(NaN)
  {
  }

  /** Values of no handled type come back unchanged; in particular integers. */
  lemma OthersPassThrough(v: PyVal, convertToFloat: bool, infer: Infer)
    requires v.NaN? || v.Int? || v.Str? || v.Other?
    ensures Putval(v, convertToFloat, infer) == Ok(v)
  {
  }

  /** A dict comes back as a dict with the same keys in the same order, each
      value replaced by its normalised value; it fails exactly when some value
      does, with the error of the first such value. */
  lemma DictKeepsKeys(es: seq<(string, PyVal)>, convertToFloat: bool, infer: Infer)
    ensures var r := Putval(Dict(es), convertToFloat, infer);
            r.Ok? ==> && r.value.Dict?
                      && Keys(r.value.entries) == Keys(es)
                      && forall i :: 0 <= i < |es| ==>
                           Putval(es[i].1, convertToFloat, infer) == Ok(r.value.entries[i].1)
    ensures var r := Putval(Dict(es), convertToFloat, infer);
            r.Err? <==> exists i :: 0 <= i < |es| && Putval(es[i].1, convertToFloat, infer).Err?
  {
    var r := PutEntries(es, convertToFloat, infer);
    if r.Ok? {
      forall i | 0 <= i < |es| ensures Putval(es[i].1, convertToFloat, infer).Ok? {
        assert Putval(es[i].1, convertToFloat, infer) == Ok(r.value[i].1);
      }
    }
  }

  /** A list whose inferred array has a numeric kind, and which `clean_array`
      accepts, becomes that cleaned array. */
  lemma NumericListBecomesArray(xs: seq<PyVal>, convertToFloat: bool, infer: Infer)
    requires infer(xs).Some? && IsNumericKind(infer(xs).value.dt.kind)
    requires CleanArray(infer(xs).value, convertToFloat).Ok?
    ensures Putval(List(xs), convertToFloat, infer)
         == Ok(NdArray(CleanArray(infer(xs).value, convertToFloat).value))
  {
  }

  /** Otherwise (inference fails, the kind is not numeric, or `clean_array`
      raises inside the `try`) the list is handled as the tuple of its
      elements, with `convert_to_float` dropped to false; so the flag the
      caller passed makes no difference. */
  lemma ListFallsBackToTuple(xs: seq<PyVal>, convertToFloat: bool, infer: Infer)
    requires || infer(xs).None?
             || !IsNumericKind(infer(xs).value.dt.kind)
             || CleanArray(infer(xs).value, convertToFloat).Err?
    ensures Putval(List(xs), convertToFloat, infer) == Putval(Tuple(xs), false, infer)
    ensures Putval(List(xs), convertToFloat, infer) == Putval(List(xs), !convertToFloat, infer)
  {
    if infer(xs).Some? {
      RejectedIff(infer(xs).value, convertToFloat);
      RejectedIff(infer(xs).value, !convertToFloat);
    }
  }

  /** Errors from `clean_array` on the inferred array are swallowed by the
      `try`, so a list fails only when one of its elements fails on the tuple
      path. In particular an empty list never fails. */
  lemma ListErrorsComeFromElements(xs: seq<PyVal>, convertToFloat: bool, infer: Infer)
    ensures Putval(List(xs), convertToFloat, infer).Err? ==>
              exists i :: 0 <= i < |xs| && Putval(xs[i], PutvalDefaultConvert, infer).Err?
  {
    var r := Putval(List(xs), convertToFloat, infer);
    if r.Err? {
      assert r == PutCollection(xs, PutvalDefaultConvert, infer);
      assert PutItems(xs, PutvalDefaultConvert, infer).Err?;
    }
  }

  /** A one-element tuple or set normalises to its normalised element. */
  lemma SingletonCollapses(x: PyVal, convertToFloat: bool, infer: Infer)
    ensures Putval(Tuple([x]), convertToFloat, infer) == Putval(x, convertToFloat, infer)
    ensures Putval(Set([x]), convertToFloat, infer) == Putval(x, convertToFloat, infer)
  {
  }

  /** Any other tuple or set, the empty one included, becomes a one-dimensional
      object array holding the normalised elements in order, and is not
      transposed; it fails exactly when an element does. */
  lemma CollectionBecomesCellArray(xs: seq<PyVal>, convertToFloat: bool, infer: Infer)
    requires |xs| != 1
    ensures Putval(Set(xs), convertToFloat, infer) == Putval(Tuple(xs), convertToFloat, infer)
    ensures var r := Putval(Tuple(xs), convertToFloat, infer);
            r.Ok? ==> && r.value.NdArray?
                      && IsObject(r.value.arr.dt)
                      && r.value.arr.shape == [|xs|]
                      && r.value.arr.order == RowMajor
                      && WellFormed(r.value.arr)
                      && forall i :: 0 <= i < |xs| ==>
                           && Putval(xs[i], convertToFloat, infer).Ok?
                           && At(r.value.arr, [i]) == Obj(Putval(xs[i], convertToFloat, infer).value)
    ensures Putval(Tuple(xs), convertToFloat, infer).Err?
        <==> exists i :: 0 <= i < |xs| && Putval(xs[i], convertToFloat, infer).Err?
  {
    var r := PutItems(xs, convertToFloat, infer);
    if r.Ok? {
      forall i | 0 <= i < |xs| ensures Putval(xs[i], convertToFloat, infer).Ok? {
        assert Putval(xs[i], convertToFloat, infer) == Ok(r.value[i]);
      }
    }
  }

  /** An ndarray is exactly what `clean_array` makes of it. */
  lemma ArrayIsCleaned(a: Arr, convertToFloat: bool, infer: Infer)
    ensures Putval(NdArray(a), convertToFloat, infer).Ok? <==> CleanArray(a, convertToFloat).Ok?
    ensures Putval(NdArray(a), convertToFloat, infer).Ok? ==>
              Putval(NdArray(a), convertToFloat, infer).value == NdArray(CleanArray(a, convertToFloat).value)
  {
  }

  /** Every successful normalisation lands in the output model. */
  lemma {:induction false} PutvalNormalizes(v: PyVal, convertToFloat: bool, infer: Infer)
    ensures Putval(v, convertToFloat, infer).Ok? ==> Normalized(Putval(v, convertToFloat, infer).value)
    decreases v, 1
  {
    match v
    case Dict(es) =>
      var r := PutEntries(es, convertToFloat, infer);
      if r.Ok? {
        forall i | 0 <= i < |es| ensures Normalized(r.value[i].1) {
          assert es[i].1 < es[i];
          PutvalNormalizes(es[i].1, convertToFloat, infer);
        }
      }
    case List(xs) =>
      CollectionNormalizes(xs, PutvalDefaultConvert, infer);
    case Tuple(xs) =>
      CollectionNormalizes(xs, convertToFloat, infer);
    case Set(xs) =>
      CollectionNormalizes(xs, convertToFloat, infer);
    case _ =>
  }

  lemma {:induction false} CollectionNormalizes(xs: seq<PyVal>, convertToFloat: bool, infer: Infer)
    ensures PutCollection(xs, convertToFloat, infer).Ok? ==> Normalized(PutCollection(xs, convertToFloat, infer).value)
    decreases xs, 0
  {
    var r := PutItems(xs, convertToFloat, infer);
    if r.Ok? {
      if |xs| == 1 {
        PutvalNormalizes(xs[0], convertToFloat, infer);
      } else {
        ObjectIsClean();
      }
    }
  }
}

=== FILE: text.dfy ===
/** The few Python string operations the dtype decision table uses:
    substring membership (`sub in s`) and the tail slice `s[-2:]`. */
module Text {

  /** `sub` occurs in `s` starting at position `i`. */
  predicate OccursAt(s: string, sub: string, i: int) {
    0 <= i <= |s| - |sub| && s[i..i + |sub|] == sub
  }

  /** Python's `sub in s`: `sub` occurs at some position of `s`. */
  predicate Contains(s: string, sub: string) {
    exists i | 0 <= i <= |s| - |sub| :: OccursAt(s, sub, i)
  }

  /** For a one-character pattern, Python's substring test is plain membership. */
  lemma ContainsCharIffMember(s: string, c: char)
    ensures Contains(s, [c]) <==> c in s
  {
    if c in s {
      var i :| 0 <= i < |s| && s[i] == c;
      assert OccursAt(s, [c], i);
    }
    if Contains(s, [c]) {
      var i :| 0 <= i <= |s| - 1 && OccursAt(s, [c], i);
      assert s[i] == s[i..i + 1][0] == c;
    }
  }

  /** A pattern with a character that `s` lacks does not occur in `s`. */
  lemma MissingCharNotContained(s: string, sub: string, k: nat)
    requires k < |sub| && sub[k] !in s
    ensures !Contains(s, sub)
  {
    forall i | 0 <= i <= |s| - |sub| ensures !OccursAt(s, sub, i) {
      assert s[i..i + |sub|][k] == s[i + k];
    }
  }

  /** Python's `s[-2:]`: the last two characters, or all of `s` when it is shorter. */
  function LastTwo(s: string): string {
    if |s| >= 2 then s[|s| - 2..] else s
  }

  predicate EndsWith(s: string, suffix: string) {
    |suffix| <= |s| && s[|s| - |suffix|..] == suffix
  }

  /** Comparing `s[-2:]` with a two-character literal is a suffix test, even for
      strings shorter than two characters. */
  lemma LastTwoIsSuffixTest(s: string, suffix: string)
    requires |suffix| == 2
    ensures LastTwo(s) == suffix <==> EndsWith(s, suffix)
  {
    if |s| < 2 {
      assert |LastTwo(s)| < 2;
    }
  }
}

=== FILE: values.dfy ===
/** The value universe that the normaliser walks: Python values, NumPy arrays
    and the array elements. */
module Values {
  import opened Wrappers
  import opened DTypes

  /** A real number as far as the model needs it: exactly zero, the 1e-9
      marker written into imaginary parts, or some other value. */
  datatype Scalar = Zero | Tiny | NonZero(tag: int)

  /** One array element: a number with real and imaginary part, or, in an
      object array, a reference to an arbitrary Python value. */
  datatype Elem = Num(re: Scalar, im: Scalar) | Obj(item: PyVal)

  /** Memory order of the flat element buffer. */
  datatype Layout = RowMajor | ColMajor

  /** A contiguous ndarray: dtype, shape, the element buffer in `order`, and
      whether the object has a `classname` attribute (Octave class objects). */
  datatype Arr = Arr(dt: DType, shape: seq<nat>, order: Layout, elems: seq<Elem>, hasClassname: bool)

  /** Python values. `Dict` keeps its entries in insertion order; a `Set` is
      given in its iteration order; `NaN` is `np.NaN`; `Other` stands for any
      value the normaliser leaves alone (floats, booleans, objects). */
  datatype PyVal =
    | Dict(entries: seq<(string, PyVal)>)
    | PyNone
    | List(items: seq<PyVal>)
    | Tuple(items: seq<PyVal>)
    | Set(items: seq<PyVal>)
    | NdArray(arr: Arr)
    | NaN
    | Int(i: int)
    | Str(s: string)
    | Other(tag: int)

  /** The exceptions of the write path: `Oct2PyError('Datatype not supported: ...')`
      naming the dtype, a `KeyError` for a missing key, and the `TypeError`
      of `len()` on a value without a length. */
  datatype Error = Unsupported(dtype: DType) | KeyError(key: string) | NoLen

  /** The keys of a dict, in insertion order. */
  function Keys(es: seq<(string, PyVal)>): (ks: seq<string>)
    ensures |ks| == |es|
    ensures forall i :: 0 <= i < |es| ==> ks[i] == es[i].0
  {
    seq(|es|, i requires 0 <= i < |es| => es[i].0)
  }

  lemma KeysCons(es: seq<(string, PyVal)>)
    requires |es| > 0
    ensures Keys(es) == [es[0].0] + Keys(es[1..])
  {
  }

  /** `d[key]`, or `None` when the key is absent. */
  function Lookup(es: seq<(string, PyVal)>, key: string): Option<PyVal> {
    if |es| == 0 then None
    else if es[0].0 == key then Some(es[0].1)
    else Lookup(es[1..], key)
  }

  /** A lookup succeeds exactly for the keys of the dict, and finds an entry
      that holds the key. */
  lemma {:induction false} LookupFindsKey(es: seq<(string, PyVal)>, key: string)
    ensures Lookup(es, key).Some? <==> key in Keys(es)
    ensures Lookup(es, key).Some? ==> exists i :: 0 <= i < |es| && es[i] == (key, Lookup(es, key).value)
  {
    if |es| > 0 {
      KeysCons(es);
      if es[0].0 != key {
        LookupFindsKey(es[1..], key);
        if Lookup(es, key).Some? {
          var i :| 0 <= i < |es[1..]| && es[1..][i] == (key, Lookup(es, key).value);
          assert es[i + 1] == es[1..][i];
        }
      }
    }
  }

  /** Python dict keys are unique. */
  predicate DistinctKeys(es: seq<(string, PyVal)>) {
    forall i, j :: 0 <= i < j < |es| ==> es[i].0 != es[j].0
  }
}

=== FILE: wrappers.dfy ===
/** Failure-compatible Option and Result types used throughout the model,
    standing in for Python's `None` returns and raised exceptions. */
module Wrappers {

  datatype Option<+T> = None | Some(value: T)

  /** `Ok` is a normal return; `Err` is a raised exception carrying its cause. */
  datatype Result<+T, +E> = Ok(value: T) | Err(error: E) {

    predicate IsFailure() {
      Err?
    }

    function PropagateFailure<U>(): Result<U, E>
      requires Err?
    {
      Err(error)
    }

    function Extract(): T
      requires Ok?
    {
      value
    }
  }
}

=== FILE: writer.dfy ===
/** `write_file` up to the hand-over to `savemat`: inject `nargin` into the
    argument bundle and normalise the whole bundle. The result is the value
    that would be written. */
module Writer {
  import opened Wrappers
  import opened Values
  import opened Normalize

  /** `write_file`'s default for `convert_to_float` (unlike `putval`'s). */
  const WriteFileDefaultConvert: bool := true

  /** `d[key] = v` on a dict: replaces the value in place when the key is
      present, appends a new entry otherwise. */
  function SetKey(es: seq<(string, PyVal)>, key: string, v: PyVal): (r: seq<(string, PyVal)>)
    ensures Lookup(r, key) == Some(v)
    ensures forall k :: k != key ==> Lookup(r, k) == Lookup(es, k)
  {
    if |es| == 0 then [(key, v)]
    else if es[0].0 == key then [(key, v)] + es[1..]
    else
      var rest := SetKey(es[1..], key, v);
      assert ([es[0]] + rest)[1..] == rest;
      [es[0]] + rest
  }

  /** Assignment keeps the key order: an existing key stays where it was, a
      new one goes last. */
  lemma {:induction false} SetKeyOrder(es: seq<(string, PyVal)>, key: string, v: PyVal)
    ensures Keys(SetKey(es, key, v)) == if key in Keys(es) then Keys(es) else Keys(es) + [key]
  {
    var r := SetKey(es, key, v);
    if |es| == 0 {
      assert Keys(r) == [key];
    } else {
      KeysCons(es);
      KeysCons(r);
      assert r[1..] == if es[0].0 == key then es[1..] else SetKey(es[1..], key, v);
      if es[0].0 != key {
        SetKeyOrder(es[1..], key, v);
      }
    }
  }

  /** Assignment keeps the keys of a dict unique. */
  lemma SetKeyDistinct(es: seq<(string, PyVal)>, key: string, v: PyVal)
    requires DistinctKeys(es)
    ensures DistinctKeys(SetKey(es, key, v))
  {
    SetKeyOrder(es, key, v);
    var r := SetKey(es, key, v);
    assert forall i :: 0 <= i < |r| ==> r[i].0 == Keys(r)[i];
    assert forall i :: 0 <= i < |es| ==> es[i].0 == Keys(es)[i];
  }

  /** Python's `len()`: defined for sequences, sets, dicts, strings and
      arrays with at least one dimension; a `TypeError` otherwise. */
  function Len(v: PyVal): Option<nat> {
    match v
    case List(xs) => Some(|xs|)
    case Tuple(xs) => Some(|xs|)
    case Set(xs) => Some(|xs|)
    case Dict(es) => Some(|es|)
    case Str(s) => Some(|s|)
    case NdArray(a) => if |a.shape| == 0 then None else Some(a.shape[0])
    case _ => None
  }

  /** The bundle handed to `savemat`, or the exception raised before it. */
  function WriteFile(obj: seq<(string, PyVal)>, convertToFloat: bool, infer: Infer): Result<PyVal, Error> {
    match Lookup(obj, "func_args")
    case None => Err(KeyError("func_args"))
    case Some(args) =>
      match Len(args)
      case None => Err(NoLen)
      case Some(n) => Putval(Dict(SetKey(obj, "nargin", Int(n))), convertToFloat, infer)
  }
}

module WriterProperties {
  import opened Wrappers
  import opened DTypes
  import opened Values
  import opened Cleaning
  import opened Normalize
  import opened NormalizeProperties
  import opened Writer

  /** After `putval` on a dict, looking a key up gives the normalised value of
      what the key held before. */
  lemma {:induction false} LookupAfterPutEntries(es: seq<(string, PyVal)>, convertToFloat: bool, infer: Infer, key: string)
    requires PutEntries(es, convertToFloat, infer).Ok?
    ensures var r := PutEntries(es, convertToFloat, infer).value;
            && (Lookup(r, key).Some? <==> Lookup(es, key).Some?)
            && (Lookup(es, key).Some? ==>
                  Putval(Lookup(es, key).value, convertToFloat, infer) == Ok(Lookup(r, key).value))
  {
    if |es| > 0 {
      var r := PutEntries(es, convertToFloat, infer).value;
      assert Putval(es[0].1, convertToFloat, infer) == Ok(r[0].1);
      assert r[0].0 == Keys(r)[0] == Keys(es)[0] == es[0].0;
      if es[0].0 != key {
        LookupAfterPutEntries(es[1..], convertToFloat, infer, key);
        assert r[1..] == PutEntries(es[1..], convertToFloat, infer).value;
      }
    }
  }

  /** A missing `func_args` raises `KeyError`; one without a length raises
      `TypeError`; both before anything is normalised. */
  lemma WriteFileArgumentErrors(obj: seq<(string, PyVal)>, convertToFloat: bool, infer: Infer)
    ensures "func_args" !in Keys(obj) ==> WriteFile(obj, convertToFloat, infer) == Err(KeyError("func_args"))
    ensures "func_args" in Keys(obj) ==> Lookup(obj, "func_args").Some?
    ensures "func_args" in Keys(obj) && Len(Lookup(obj, "func_args").value).None?
            ==> WriteFile(obj, convertToFloat, infer) == Err(NoLen)
  {
    LookupFindsKey(obj, "func_args");
  }

  /** A written bundle has `nargin` set to the number of positional
      arguments, overwriting any previous entry; an existing `nargin` keeps
      its place and a new one comes last. */
  lemma WriteFileInjectsNargin(obj: seq<(string, PyVal)>, convertToFloat: bool, infer: Infer)
    requires WriteFile(obj, convertToFloat, infer).Ok?
    ensures Lookup(obj, "func_args").Some? && Len(Lookup(obj, "func_args").value).Some?
    ensures var d := WriteFile(obj, convertToFloat, infer).value;
            && d.Dict?
            && Lookup(d.entries, "nargin") == Some(Int(Len(Lookup(obj, "func_args").value).value))
            && Keys(d.entries) == (if "nargin" in Keys(obj) then Keys(obj) else Keys(obj) + ["nargin"])
  {
    var n := Len(Lookup(obj, "func_args").value).value;
    var bundle := SetKey(obj, "nargin", Int(n));
    assert PutEntries(bundle, convertToFloat, infer).Ok?;
    LookupAfterPutEntries(bundle, convertToFloat, infer, "nargin");
    OthersPassThrough(Int(n), convertToFloat, infer);
    SetKeyOrder(obj, "nargin", Int(n));
  }

  /** Every other entry of a written bundle holds the normalised value of
      the caller's entry under the same key. */
  lemma WriteFileNormalizesEntries(obj: seq<(string, PyVal)>, convertToFloat: bool, infer: Infer, key: string)
    requires WriteFile(obj, convertToFloat, infer).Ok?
    requires key != "nargin" && Lookup(obj, key).Some?
    ensures var d := WriteFile(obj, convertToFloat, infer).value;
            && d.Dict? && Lookup(d.entries, key).Some?
            && Putval(Lookup(obj, key).value, convertToFloat, infer) == Ok(Lookup(d.entries, key).value)
  {
    var n := Len(Lookup(obj, "func_args").value).value;
    var bundle := SetKey(obj, "nargin", Int(n));
    assert PutEntries(bundle, convertToFloat, infer).Ok?;
    LookupAfterPutEntries(bundle, convertToFloat, infer, key);
  }

  /** The written bundle lies in the output model. */
  lemma WriteFileNormalizes(obj: seq<(string, PyVal)>, convertToFloat: bool, infer: Infer)
    requires WriteFile(obj, convertToFloat, infer).Ok?
    ensures Normalized(WriteFile(obj, convertToFloat, infer).value)
  {
    var n := Len(Lookup(obj, "func_args").value).value;
    PutvalNormalizes(Dict(SetKey(obj, "nargin", Int(n))), convertToFloat, infer);
  }

  /** `{'func_args': [], 'y': None}` is written with `nargin == 0` and `y`
      as NaN, whatever NumPy infers for the empty list. */
  lemma NoneArgumentScenario(convertToFloat: bool, infer: Infer)
    ensures var d := WriteFile([("func_args", List([])), ("y", PyNone)], convertToFloat, infer);
            && d.Ok? && d.value.Dict?
            && Lookup(d.value.entries, "nargin") == Some(Int(0))
            && Lookup(d.value.entries, "y") == Some(NaN)
  {
    var obj := [("func_args", List([])), ("y", PyNone)];
    assert Lookup(obj, "func_args") == Some(List([]));
    var bundle := SetKey(obj, "nargin", Int(0));
    assert bundle == obj + [("nargin", Int(0))];
    ListErrorsComeFromElements([], convertToFloat, infer);
    assert Putval(List([]), convertToFloat, infer).Ok?;
    assert PutEntries(bundle[2..], convertToFloat, infer).Ok?;
    assert PutEntries(bundle[1..], convertToFloat, infer).Ok?;
    assert PutEntries(bundle, convertToFloat, infer).Ok?;
    WriteFileInjectsNargin(obj, convertToFloat, infer);
    WriteFileNormalizesEntries(obj, convertToFloat, infer, "y");
  }

  /** With `write_file`'s default `convert_to_float`, an entry passed as an
      ndarray is written with a kind other than unsigned, signed or boolean. */
  lemma WriteFileDefaultFloats(obj: seq<(string, PyVal)>, infer: Infer, key: string, a: Arr)
    requires WriteFile(obj, WriteFileDefaultConvert, infer).Ok?
    requires key != "nargin" && Lookup(obj, key) == Some(NdArray(a))
    ensures var d := WriteFile(obj, WriteFileDefaultConvert, infer).value;
            && d.Dict? && Lookup(d.entries, key).Some? && Lookup(d.entries, key).value.NdArray?
            && !IsIntegralKind(Lookup(d.entries, key).value.arr.dt.kind)
  {
    WriteFileNormalizesEntries(obj, WriteFileDefaultConvert, infer, key);
    ArrayIsCleaned(a, WriteFileDefaultConvert, infer);
  }
}
